=== FILE: README.md ===
# simpleais command-line helpers, modelled in Dafny

simpleais decodes AIS (ship position) radio messages carried in NMEA 0183
sentences. Its `tools.py` module builds the command-line programs on top of the
decoder, and this project models that module's logic:

- **Checksums.** `checksum_check` finds `!A…*hh` in a line with the regular
  expression `!(A.*)\*(..)`. It XORs the character codes of the body and
  compares the hex rendering with the two declared characters.
  `checksum_checks` applies it to every line of a sentence's source text.
- **Chunks.** `chunks(l, n)` cuts a list into `n`-sized pieces. `dump` uses it
  to lay out a message's bits as 6-bit lumps, ten lumps per row.
- **Fields.** `Fields` is a string map whose setter stores the stripped value
  and drops empty keys and blank values.
- **Bounds.** `MaxMin` and `GeoInfo` keep running minima and maxima of
  latitudes and longitudes.
- **Tallies.** `SenderInfo.add` and `SentencesInfo.add` count sentences per
  type and per sender, remember a sender's MMSI, ship name and destination,
  and widen the position bounds.
- **grep filter.** `grep` decides which sentences to print from its `--mmsi`,
  `--mmsi-file`, `--type`, `--lat` and `--lon` options.

Modules:

- `Base`: `Option` and `Min`.
- `PyStr`: Python's `str.isspace` and `str.strip()`.
- `Sentences`: the decoded sentence, seen as a record of looked-up fields, with
  Python truthiness.
- `Checksum`: the pattern search, the XOR, the hex renderings, both checks and
  sealing.
- `Chunking`: `chunks` and the `dump` layout.
- `FieldMap`: `Fields`.
- `Counter`: `defaultdict(int)` as a counter, with a ghost sum of all counts.
- `Bounds`: `MaxMin` and `GeoInfo`.
- `Info`: `SenderInfo` and `SentencesInfo`.
- `Grep`: the filter and the lines it prints.

Python mutation (`self.x += 1`) is modelled as a pure function from the old
object to the new one. A history of `add` calls is modelled as a fold over a
sequence of sentences. Python truthiness is spelled out:

- an MMSI is truthy when present and non-empty;
- a coordinate is truthy when present and non-zero;
- `--type 0` counts as no `--type`.

The regular-expression search is modelled exactly:

- `re.search` takes the leftmost `!A`;
- the greedy `.*` takes the last `*` that still leaves two characters;
- `.` never matches a newline.

Where Python would raise, because there is no match or no such key, the model
returns `None`.

`checksum_check` upper-cases only its own rendering and compares it with `==`,
so lower-case declared digits fail (`Checksum.CheckRejectsLowercase`).

## Model

| member | source | states |
|---|---|---|
| PyStr.Strip | simpleais/tools.py:108 | `value.strip()`: the result sits in the input with only whitespace before and after it, its ends are not whitespace, and it is empty exactly when the input is all whitespace |
| PyStr.StripUnique | simpleais/tools.py:108 | those properties determine the strip: any run of the input that has them is `Strip` of the input |
| PyStr.StripIdempotent | simpleais/tools.py:108 | stripping a stripped string changes nothing |
| Checksum.ScanStar | simpleais/tools.py:304 | backtracking of the greedy `.*`: the last `*` at or before a position that completes a match, or none at all |
| Checksum.ScanBang | simpleais/tools.py:307 | the search tries the starts left to right: the result is the leftmost match with its greedy `*`, and no result means no match from that position on |
| Checksum.Match | simpleais/tools.py:304-307 | `PAT.search`: no result iff the pattern matches nowhere; otherwise group 1 and group 2 are the body and the two characters of the leftmost, greedy match; group 1 starts with `A` |
| Checksum.XorAsciiBelow128 | simpleais/tools.py:308 | the XOR of 7-bit character codes is below 0x80, so it fits in two hex digits |
| Checksum.Hex | simpleais/tools.py:308 | `hex(n)[2:]` denotes `n` in lower-case digits with no leading zero; it has one digit iff `n` < 0x10, at most two iff `n` < 0x100 |
| Checksum.RenderedShape | simpleais/tools.py:308 | `hex(x)[2:4].upper()` is a single character below 0x10, the two upper-case digits of `x` from 0x10 to 0xFF, and upper-case hex digits in every case |
| Checksum.PaddedHex | simpleais/tools.py:308 | the corrected rendering denotes `n`, has exactly two characters iff `n` < 0x100, and those are the high and low upper-case digits |
| Checksum.ChecksumCheck | simpleais/tools.py:306-309 | `checksum_check` as written gives no verdict exactly when the pattern does not match |
| Checksum.CheckAsWrittenIff | simpleais/tools.py:306-309 | as written, for checksums up to 0xFF: accepted iff the XOR is at least 0x10 and the declared characters are its two upper-case hex digits |
| Checksum.CheckAsWrittenRejectsBelow16 | simpleais/tools.py:308-309 | as written, a line whose XOR is below 0x10 is rejected whatever it declares |
| Checksum.CheckRejectsLowercase | simpleais/tools.py:309 | the comparison is case-sensitive: a lower-case declared digit fails both checks |
| Checksum.ChecksumCheckPadded | simpleais/tools.py:306-309 | the corrected check gives no verdict exactly when there is no match, and accepts iff the XOR is below 0x100 and the declared characters are its two upper-case hex digits |
| Checksum.SealedMatch | simpleais/tools.py:304-307 | on a sentence written as `!` body `*` checksum, the search returns exactly that body and that checksum |
| Checksum.SealedLineChecks | simpleais/tools.py:306-309 | round trip: the corrected check accepts every correctly sealed sentence |
| Checksum.SealedLineRejectedAsWritten | simpleais/tools.py:308-309 | a correctly sealed sentence with a checksum below 0x10 is rejected by the check as written and accepted by the corrected one |
| Checksum.LeadingZeroCounterexample | simpleais/tools.py:308-309 | `!AB*03` is `AB` correctly sealed; the check as written rejects it and the corrected check accepts it |
| Checksum.CheckLines | simpleais/tools.py:315 | the list comprehension gives one verdict per line, in order, and a list exactly when no line raises |
| Checksum.ChecksumChecks | simpleais/tools.py:311-315 | `checksum_checks` gives a list exactly when every source line matches the pattern; it then holds one verdict per line (one for a single-string text, one per fragment line otherwise), each the as-written `checksum_check` of that line |
| Checksum.ChecksumChecksPadded | simpleais/tools.py:311-315 | the same list built on the corrected check: a list exactly when every source line matches, one corrected verdict per line |
| Checksum.CheckAgreesFrom16 | simpleais/tools.py:308-309 | for checksums from 0x10 to 0xFF the check as written and the corrected check give the same verdict |
| Checksum.OneStringVerdictCounterexample | simpleais/tools.py:311-313 | `checksum_checks` of a sentence whose text is the single string `!AB*03` is `[False]`; the corrected version gives `[True]` |
| Chunking.Chunks | simpleais/tools.py:298-301 | the chunks concatenate back to the input; each holds 1 to `n` items and all but the last hold exactly `n` |
| Chunking.ChunkList | simpleais/tools.py:298-301 | the generator loop over `range(0, len(l), n)`, with slices clamped at the end, yields exactly `Chunks` |
| Chunking.ChunksAfterFull | simpleais/tools.py:298-301 | chunking full chunks followed by a rest gives those chunks, then the chunks of the rest |
| Chunking.DumpRows | simpleais/tools.py:330-335 | `dump`'s rows read back in order give the bit string; a row has 1 to 10 lumps and every row but the last exactly 10; a lump has 1 to 6 bits and every lump but the last exactly 6; there are rows iff there are bits |
| FieldMap.Set | simpleais/tools.py:107-110 | the setter stores the stripped value under a non-empty key when it is not blank, leaves the map as it was for an empty key or blank value, and touches no other key |
| FieldMap.SetKeepsValid | simpleais/tools.py:107-110 | every stored entry has a non-empty key and a non-blank, already stripped value, and the setter keeps it so |
| FieldMap.GetAfterSet | simpleais/tools.py:104-110 | reading a key back after setting it gives the stripped value, or the old entry if the set was dropped; other keys read as before |
| FieldMap.SetOverwrites | simpleais/tools.py:107-110 | a later non-blank set of the same key wins over an earlier one |
| FieldMap.SetCommutes | simpleais/tools.py:107-110 | sets of different keys commute |
| Counter.Bump | simpleais/tools.py:127 | `c[k] += 1` on a `defaultdict(int)`: `k` goes up by one, every other count stays, `k` becomes a key, and the sum of all counts grows by one |
| Bounds.ValidMeansBothSet | simpleais/tools.py:145-146 | the doubled `min` test in `valid()` is harmless: on a consistent `MaxMin` it holds iff both ends are set |
| Bounds.Add | simpleais/tools.py:148-155 | `add` gives a valid, consistent range containing the value and the old range, and moves each end only to the new value |
| Bounds.AddAllBrackets | simpleais/tools.py:141-155 | after adding a non-empty list to `MaxMin()`, the ends are the least and greatest values added |
| Bounds.AddAllFromStart | simpleais/tools.py:142-155 | with `MaxMin(start)`, the ends are the least and greatest among the start and the values added |
| Bounds.GeoAdd | simpleais/tools.py:163-165 | `GeoInfo.add` makes both coordinate ranges valid and containing the new point, keeps each old range inside the new one, and moves each end only to the new coordinate |
| Info.SenderAdd | simpleais/tools.py:123-130 | `SenderInfo.add` counts one more sentence, in exactly its type's bucket, and the sum of type counts grows by one; the type counter gains exactly the sentence's type as a key; it takes the sentence's MMSI only while the stored one is falsy; it records stripped ship name and destination only for type 5 sentences; a blank name or destination leaves the stored one as it was; no other field changes |
| Info.VoyageFields | simpleais/tools.py:128-130 | the type 5 step of `add`: a non-blank ship name and destination are stored stripped, a blank one leaves the stored value, no other key changes, and other types change nothing |
| Info.SenderHistoryCounts | simpleais/tools.py:116-127 | after any history the sentence count is the number of sentences, equals the sum of the type counts, and each type count is how many sentences had that type |
| Info.SenderMmsiNoneTruthy | simpleais/tools.py:124-125 | while no sentence had a truthy MMSI, the stored MMSI is the latest sentence's one, and falsy |
| Info.SenderMmsiFirstTruthy | simpleais/tools.py:124-125 | the stored MMSI is that of the first sentence with a truthy MMSI, never replaced later |
| Info.SenderHistoryFields | simpleais/tools.py:128-130 | only `shipname` and `destination` are ever recorded, always stripped and non-blank |
| Info.SenderFieldsNeedType5 | simpleais/tools.py:128-130 | without a type 5 sentence nothing is recorded |
| Info.SenderAddKeepsFieldsValid | simpleais/tools.py:128-130 | one `add` keeps every recorded field stripped and non-blank |
| Info.SummaryAdd | simpleais/tools.py:186-191 | `SentencesInfo.add` counts one more sentence in exactly its type's and its sender's buckets, each sum grows by one, each counter gains exactly that type or sender as a key, and the bounds stay as they were for a falsy latitude, otherwise become valid, take in the position and keep what they held |
| Info.GeoStep | simpleais/tools.py:190-191 | `if sentence['lat']:` a falsy latitude, including exactly 0, leaves the bounds alone; a truthy one makes them valid, containing the point, and containing each old range |
| Info.SummaryHistory | simpleais/tools.py:179-191 | a history of `add` calls from `SentencesInfo()` keeps both coordinate ranges consistent |
| Info.SummaryHistoryCounts | simpleais/tools.py:186-189 | after any history the sentence count is the number of sentences and equals the sum of the type counts and the sum of the sender counts |
| Info.SummaryHistoryBuckets | simpleais/tools.py:187-189 | each type bucket holds how many sentences had that type, each sender bucket how many had that MMSI |
| Info.SummaryHistoryGeo | simpleais/tools.py:190-191 | the bounds after a history are those of adding exactly the positions with a truthy latitude, in order, to a fresh `GeoInfo` |
| Info.SummaryBoundsExact | simpleais/tools.py:168-169 | once a position has been added, the reported corners are exactly the least and greatest latitudes and longitudes among those positions |
| Grep.MmsiSetNonEmpty | simpleais/tools.py:42-50 | with an MMSI file, the MMSI filter is switched on iff some MMSI was given or the file has any line, blank lines included |
| Grep.BlankMmsiFileSelectsNoTruthyMmsi | simpleais/tools.py:42-51 | a file of only blank lines yields the single MMSI `""`, so no sentence with a truthy MMSI is printed |
| Grep.AllTrue | simpleais/tools.py:59 | `reduce(lambda x, y: x and y, factors)` is true iff every factor is |
| Grep.Selected | simpleais/tools.py:48-59 | a sentence is printed iff every enabled filter holds: MMSI in a non-empty collection, type equal to a non-zero `--type`, and each given coordinate truthy and strictly inside its range |
| Grep.NoFilterSelectsAll | simpleais/tools.py:48-59 | with no option every sentence is printed, and `--type 0` filters nothing |
| Grep.GrepAppend | simpleais/tools.py:47-60 | filtering a stream in two parts prints the same as filtering it whole |
| Grep.GrepNoFilterEchoes | simpleais/tools.py:47-60 | with no option `grep` prints every sentence's source text, in order |
| Grep.GrepSingle | simpleais/tools.py:59-60 | a sentence's lines are printed iff the sentence is selected |

## Left out

- The decoder engine (tokenizing, fragment reassembly, 6-bit armor, field tables) is not part of this model. A sentence is a record of the fields the helpers look up, and `message_bits()` is a given bit string.
- File and stream I/O, `print`, the `click` commands and `sentences_from_sources` are left out. The helpers are modelled as pure functions of their inputs: `grep`'s output is modelled as the list of lines it prints.
- `burst` (one output file per sender), the `report` methods and `as_text`/`strftime` time formatting are left out: they only format and write.
- `Bucketer`, `DensityMap` and `info`'s map are left out. They depend on numpy and floating-point bucketing.
- Chunking.DumpRows: models only the layout of `dump`'s bit rows, not its printing (the verdict line, the row labels, the spacing). On an empty bit string `dump` raises `StopIteration` at `groups.__next__()` (tools.py:333), while `DumpRows` returns no rows.
- Chunking.Chunks: requires `n > 0`. Python's `range` raises for a step of 0 and yields nothing for a negative step; neither case is modelled.
- Bounds.Add: requires a consistent `MaxMin` (both ends set or neither, minimum at most maximum). That is the only kind `MaxMin()` and `add` ever produce.
- Coordinates are exact reals. NaN and float rounding are not modelled.
- Info.SummaryAdd: requires that a sentence with a truthy latitude also has a longitude. Python would pass `None` to `MaxMin.add`. While the longitude range is still unset, that stores `None` without comparing. Once the range is set, a later `add` raises `TypeError` at the comparison.
- Info.SenderAdd: `shipname` and `destination` are strings. A missing field, where Python's `None.strip()` raises, is not modelled.
- Checksum.ChecksumCheck: its contract states only when a verdict exists. The verdict itself is characterised by `Checksum.CheckAsWrittenIff` for checksums up to 0xFF, which covers every ASCII sentence.
- `hex()` of a negative number is not modelled: the XOR of character codes is never negative.

## Findings

| source | as written | input that shows it | evidently intended | confidence | as-written member | corrected member |
|---|---|---|---|---|---|---|
| simpleais/tools.py:308 | the checksum is rendered with `hex(x)[2:4].upper()`, which has no leading zero, so a checksum below 0x10 becomes one character and never equals the two declared digits | `!AB*03`: `A` XOR `B` is 0x03, the declared checksum is `03`, yet the rendering is `3` and the check returns False | render zero-padded to two upper-case digits (`"{:02X}"`), so every correctly sealed sentence passes | not executed; proved on the model | Checksum.LeadingZeroCounterexample | Checksum.SealedLineChecks |

=== FILE: base.dfy ===
/** Shared vocabulary: Python's `None`-or-value as an option type. */
module Base {

  /** `None` or a present value. */
  datatype Option<+T> = None | Some(value: T)

  function Min(a: int, b: int): int
  {
    if a <= b then a else b
  }
}

=== FILE: bounds.dfy ===
/** `MaxMin` and `GeoInfo`: running minimum and maximum of the values seen, per
    coordinate for positions. */
module Bounds {
  import opened Base

  /** A `MaxMin`'s two attributes; `None` before the first value. */
  datatype MaxMin = MaxMin(min: Option<real>, max: Option<real>)

  /** `MaxMin(starting)`: both ends set to the starting value. */
  function NewMaxMin(starting: Option<real>): MaxMin
  {
    MaxMin(starting, starting)
  }

  /** `valid()` as written: it tests `min` twice and never looks at `max`. */
  predicate Valid(m: MaxMin)
  {
    m.min.Some? && m.min.Some?
  }

  /** What every `MaxMin` built by `NewMaxMin` and `Add` satisfies: both ends
      are set or neither is, and the minimum is at most the maximum. */
  ghost predicate Consistent(m: MaxMin)
  {
    && (m.min.Some? <==> m.max.Some?)
    && (m.min.Some? ==> m.min.value <= m.max.value)
  }

  /** The duplicated test in `valid()` is harmless: on a consistent `MaxMin` it
      holds exactly when both ends are set. */
  lemma ValidMeansBothSet(m: MaxMin)
    requires Consistent(m)
    ensures Valid(m) <==> m.min.Some? && m.max.Some?
  {
  }

  /** `add(value)`: the first value sets both ends; later ones widen whichever
      end they pass. The result is valid, brackets `value`, keeps every value
      the old range held, and each end is either unchanged or `value`. */
  function Add(m: MaxMin, value: real): (r: MaxMin)
    requires Consistent(m)
    ensures Consistent(r) && Valid(r)
    ensures r.min.value <= value <= r.max.value
    ensures Valid(m) ==> r.min.value <= m.min.value && m.max.value <= r.max.value
    ensures r.min == Some(value) || r.min == m.min
    ensures r.max == Some(value) || r.max == m.max
  {
    if !Valid(m) then
      MaxMin(Some(value), Some(value))
    else
      var max := if value > m.max.value then Some(value) else m.max;
      var min := if value < m.min.value then Some(value) else m.min;
      MaxMin(min, max)
  }

  /** `add` applied to each value in turn. */
  function AddAll(m: MaxMin, vs: seq<real>): (r: MaxMin)
    requires Consistent(m)
    ensures Consistent(r)
    decreases |vs|
  {
    if |vs| == 0 then m else Add(AddAll(m, vs[..|vs| - 1]), vs[|vs| - 1])
  }

  /** `m` is exactly the range of the values in `seen`: both ends are among
      them and every one of them lies between the ends. */
  ghost predicate Brackets(m: MaxMin, seen: set<real>)
  {
    && m.min.Some? && m.max.Some?
    && m.min.value in seen && m.max.value in seen
    && forall v :: v in seen ==> m.min.value <= v <= m.max.value
  }

  function Elements(vs: seq<real>): set<real>
  {
    set j | 0 <= j < |vs| :: vs[j]
  }

  /** After any non-empty run of `add` calls on a fresh `MaxMin()`, the minimum
      and maximum are the least and greatest values added. */
  lemma {:induction false} AddAllBrackets(vs: seq<real>)
    requires |vs| > 0
    ensures Brackets(AddAll(NewMaxMin(None), vs), Elements(vs))
  {
    var init := vs[..|vs| - 1];
    var v := vs[|vs| - 1];
    assert Elements(vs) == Elements(init) + {v};
    if |init| == 0 {
      assert AddAll(NewMaxMin(None), init) == NewMaxMin(None);
    } else {
      AddAllBrackets(init);
    }
  }

  /** With a starting value, the starting value counts as one of the values. */
  lemma {:induction false} AddAllFromStart(start: real, vs: seq<real>)
    ensures Brackets(AddAll(NewMaxMin(Some(start)), vs), Elements(vs) + {start})
  {
    if |vs| > 0 {
      var init := vs[..|vs| - 1];
      assert Elements(vs) == Elements(init) + {vs[|vs| - 1]};
      AddAllFromStart(start, init);
    }
  }

  /** `r` is what `add(v)` may make of `m`: both ends set and around `v`, the
      old range (when there was one) kept inside, and each end either unchanged
      or moved to `v`. */
  predicate Widens(m: MaxMin, r: MaxMin, v: real)
  {
    && r.min.Some? && r.max.Some?
    && r.min.value <= v <= r.max.value
    && (m.min.Some? && m.max.Some? ==> r.min.value <= m.min.value && m.max.value <= r.max.value)
    && (r.min == Some(v) || r.min == m.min)
    && (r.max == Some(v) || r.max == m.max)
  }

  /** `GeoInfo`: one `MaxMin` per coordinate. */
  datatype GeoInfo = GeoInfo(lat: MaxMin, lon: MaxMin)

  const NewGeoInfo: GeoInfo := GeoInfo(NewMaxMin(None), NewMaxMin(None))

  ghost predicate GeoConsistent(g: GeoInfo)
  {
    Consistent(g.lat) && Consistent(g.lon)
  }

  predicate GeoValid(g: GeoInfo)
  {
    Valid(g.lat) && Valid(g.lon)
  }

  /** `GeoInfo.add(latitude, longitude)`: each coordinate's range is widened to
      take in the new point, keeping what it held, and the result is valid. */
  function GeoAdd(g: GeoInfo, latitude: real, longitude: real): (r: GeoInfo)
    requires GeoConsistent(g)
    ensures GeoConsistent(r) && GeoValid(r)
    ensures Widens(g.lat, r.lat, latitude)
    ensures Widens(g.lon, r.lon, longitude)
  {
    GeoInfo(Add(g.lat, latitude), Add(g.lon, longitude))
  }
}

=== FILE: checksum.dfy ===
/** `checksum_check` and `checksum_checks`: recomputing an NMEA 0183 sentence
    checksum (the XOR of the characters between `!` and `*`) and comparing it
    with the two characters after the `*`. */
module Checksum {
  import opened Base
  import opened Sentences

  // ---------------------------------------------------------------------------
  // The pattern `!(A.*)\*(..)` under `re.search`
  // ---------------------------------------------------------------------------

  /** The pattern matches `s` with its `!` at `i` and its `*` at `k`: an `A` right
      after the `!`, and two characters after the `*`. Python's `.` matches any
      character but a newline, so none may occur from the `A` to the end of the
      match. */
  predicate MatchesAt(s: string, i: int, k: int)
  {
    && 0 <= i && i + 2 <= k && k + 3 <= |s|
    && s[i] == '!' && s[i + 1] == 'A' && s[k] == '*'
    && forall j :: i + 1 <= j < k + 3 ==> s[j] != '\n'
  }

  /** The match `re.search` reports among those starting at or after `lo`:
      the leftmost start, and, because `.*` is greedy, the last possible `*`
      for that start. */
  ghost predicate FirstMatchFrom(s: string, lo: int, i: int, k: int)
  {
    && lo <= i
    && MatchesAt(s, i, k)
    && (forall i', k' :: lo <= i' < i ==> !MatchesAt(s, i', k'))
    && (forall k' :: k < k' ==> !MatchesAt(s, i, k'))
  }

  /** Backtracking of the greedy `.*`: the last `*` at or before `k` that
      completes a match starting at `i`. */
  function ScanStar(s: string, i: nat, k: int): (r: Option<nat>)
    decreases k - i
    ensures r.Some? ==> r.value <= k && MatchesAt(s, i, r.value)
    ensures r.Some? ==> forall k' :: r.value < k' <= k ==> !MatchesAt(s, i, k')
    ensures r.None? ==> forall k' :: k' <= k ==> !MatchesAt(s, i, k')
  {
    if k < i + 2 then None
    else if MatchesAt(s, i, k) then Some(k)
    else ScanStar(s, i, k - 1)
  }

  /** Where a match starts (`!`) and where its `*` is. */
  datatype Span = Span(start: nat, star: nat)

  /** The search proper: try each start from `i` on, left to right. */
  function ScanBang(s: string, i: nat): (r: Option<Span>)
    decreases |s| - i
    ensures r.Some? ==> FirstMatchFrom(s, i, r.value.start, r.value.star)
    ensures r.None? ==> forall a, k :: i <= a ==> !MatchesAt(s, a, k)
  {
    if i >= |s| then None
    else
      match ScanStar(s, i, |s| - 3)
      case Some(k) => Some(Span(i, k))
      case None => ScanBang(s, i + 1)
  }

  /** The two groups of a match: `group(1)` from the `A` up to the `*`, and
      `group(2)`, the declared checksum. */
  datatype Groups = Groups(body: string, declared: string)

  /** `PAT.search(line)`; `None` where Python's `m` is `None` (and the
      subsequent `m.group` raises). */
  function Match(line: string): (g: Option<Groups>)
    ensures g.None? <==> forall i, k :: !MatchesAt(line, i, k)
    ensures g.Some? ==> exists i, k :: FirstMatchFrom(line, 0, i, k)
                                    && g.value == Groups(line[i + 1..k], line[k + 1..k + 3])
    ensures g.Some? ==> |g.value.declared| == 2 && |g.value.body| >= 1 && g.value.body[0] == 'A'
  {
    match ScanBang(line, 0)
    case None => None
    case Some(sp) => Some(Groups(line[sp.start + 1..sp.star], line[sp.star + 1..sp.star + 3]))
  }

  // ---------------------------------------------------------------------------
  // XOR of the character codes
  // ---------------------------------------------------------------------------

  /** `ord(c)`; every code point fits in 32 bits. */
  function Code(c: char): bv32
  {
    (c as int) as bv32
  }

  /** `functools.reduce(lambda a, b: a ^ b, [ord(c) for c in s])`, folded from
      the left; for a non-empty `s` starting the fold at 0 changes nothing. */
  function Xor(s: string): bv32
  {
    if |s| == 0 then 0 else Xor(s[..|s| - 1]) ^ Code(s[|s| - 1])
  }

  function XorValue(s: string): nat
  {
    Xor(s) as int
  }

  lemma XorBelow128(a: bv32, b: bv32)
    requires a < 128 && b < 128
    ensures a ^ b < 128
  {
  }

  /** On 7-bit ASCII text the checksum is itself below 0x80, so it always fits
      in two hex digits. */
  lemma {:induction false} XorAsciiBelow128(s: string)
    requires forall j :: 0 <= j < |s| ==> s[j] as int < 128
    ensures XorValue(s) < 128
  {
    if |s| > 0 {
      XorAsciiBelow128(s[..|s| - 1]);
      XorBelow128(Xor(s[..|s| - 1]), Code(s[|s| - 1]));
    }
  }

  // ---------------------------------------------------------------------------
  // Hexadecimal rendering
  // ---------------------------------------------------------------------------

  function LowerDigit(d: nat): char
    requires d < 16
  {
    if d < 10 then ('0' as int + d) as char else ('a' as int + d - 10) as char
  }

  function UpperDigit(d: nat): char
    requires d < 16
  {
    if d < 10 then ('0' as int + d) as char else ('A' as int + d - 10) as char
  }

  /** The value of a hex digit of either case; other characters read as 0. */
  function DigitValue(c: char): nat
  {
    if '0' <= c <= '9' then c as int - '0' as int
    else if 'a' <= c <= 'f' then c as int - 'a' as int + 10
    else if 'A' <= c <= 'F' then c as int - 'A' as int + 10
    else 0
  }

  /** The number a string of hex digits denotes. */
  function HexValue(s: string): nat
  {
    if |s| == 0 then 0 else HexValue(s[..|s| - 1]) * 16 + DigitValue(s[|s| - 1])
  }

  predicate IsLowerHexDigit(c: char)
  {
    '0' <= c <= '9' || 'a' <= c <= 'f'
  }

  predicate IsUpperHexDigit(c: char)
  {
    '0' <= c <= '9' || 'A' <= c <= 'F'
  }

  /** `hex(n)[2:]`: lower-case hex digits without leading zeros. */
  function Hex(n: nat): (r: string)
    decreases n
    ensures HexValue(r) == n
    ensures 1 <= |r| && (|r| > 1 ==> r[0] != '0')
    ensures forall j :: 0 <= j < |r| ==> IsLowerHexDigit(r[j])
    ensures n < 16 <==> |r| == 1
    ensures n < 256 <==> |r| <= 2
  {
    if n < 16 then
      [LowerDigit(n)]
    else
      var h := Hex(n / 16);
      var r := h + [LowerDigit(n % 16)];
      assert r[..|r| - 1] == h;
      r
  }

  /** Python's `str.upper` on the characters it is applied to here. */
  function UpperChar(c: char): char
  {
    if 'a' <= c <= 'z' then (c as int - 32) as char else c
  }

  function ToUpper(s: string): (r: string)
  {
    seq(|s|, j requires 0 <= j < |s| => UpperChar(s[j]))
  }

  /** `hex(n)[2:4].upper()`: the first two digits only, and a single digit
      when `n` is below 0x10. */
  function Rendered(n: nat): string
  {
    var h := Hex(n);
    ToUpper(h[..Min(2, |h|)])
  }

  /** `"{:02X}".format(n)`: upper-case hex digits, zero-padded to at least two. */
  function PaddedHex(n: nat): (r: string)
    ensures HexValue(r) == n
    ensures |r| == 2 <==> n < 256
    ensures n < 256 ==> r == [UpperDigit(n / 16), UpperDigit(n % 16)]
  {
    if n < 16 then
      var r := ['0', UpperDigit(n)];
      assert r[..1] == ['0'] && ['0'][..0] == [];
      assert DigitValue(UpperDigit(n)) == n;
      r
    else
      var h := Hex(n);
      UpperHexValue(h);
      assert n < 256 ==> Hex(n / 16) == [LowerDigit(n / 16)];
      ToUpper(h)
  }

  /** Upper-casing a hex digit string keeps its value. */
  lemma {:induction false} UpperHexValue(h: string)
    requires forall j :: 0 <= j < |h| ==> IsLowerHexDigit(h[j])
    ensures HexValue(ToUpper(h)) == HexValue(h)
  {
    if |h| > 0 {
      var u := ToUpper(h);
      assert u[..|u| - 1] == ToUpper(h[..|h| - 1]);
      UpperHexValue(h[..|h| - 1]);
    }
  }

  /** The as-written rendering has one character below 0x10, the two digits of
      the value up to 0xFF, and only upper-case hex digits in any case. */
  lemma RenderedShape(n: nat)
    ensures n < 16 ==> |Rendered(n)| == 1
    ensures 16 <= n < 256 ==> Rendered(n) == [UpperDigit(n / 16), UpperDigit(n % 16)]
    ensures forall j :: 0 <= j < |Rendered(n)| ==> IsUpperHexDigit(Rendered(n)[j])
  {
    if 16 <= n < 256 {
      assert Hex(n / 16) == [LowerDigit(n / 16)];
    }
  }

  // ---------------------------------------------------------------------------
  // The check
  // ---------------------------------------------------------------------------

  /** `checksum_check(line)` as written: `None` where Python raises because the
      pattern does not match, otherwise whether the declared digits equal the
      unpadded upper-cased rendering of the XOR. */
  function ChecksumCheck(line: string): (r: Option<bool>)
    ensures r.None? <==> forall i, k :: !MatchesAt(line, i, k)
  {
    match Match(line)
    case None => None
    case Some(g) => Some(g.declared == Rendered(XorValue(g.body)))
  }

  /** `checksum_check` with the rendering zero-padded to two digits, the way
      NMEA 0183 writes a checksum. True iff the declared characters are the two
      upper-case hex digits of the XOR. */
  function ChecksumCheckPadded(line: string): (r: Option<bool>)
    ensures r.None? <==> forall i, k :: !MatchesAt(line, i, k)
    ensures r.Some? ==>
              var g := Match(line).value;
              var x := XorValue(g.body);
              (r.value <==> x < 256 && g.declared == [UpperDigit(x / 16), UpperDigit(x % 16)])
  {
    match Match(line)
    case None => None
    case Some(g) => Some(g.declared == PaddedHex(XorValue(g.body)))
  }

  /** As written, for checksums up to 0xFF (every ASCII sentence), the check
      holds iff the XOR is at least 0x10 and the declared characters are its
      two upper-case hex digits. */
  lemma CheckAsWrittenIff(line: string)
    requires Match(line).Some?
    ensures var g := Match(line).value;
            var x := XorValue(g.body);
            x < 256 ==>
              (ChecksumCheck(line) == Some(true) <==>
                 16 <= x && g.declared == [UpperDigit(x / 16), UpperDigit(x % 16)])
  {
    RenderedShape(XorValue(Match(line).value.body));
  }

  /** As written, a checksum below 0x10 is never accepted, whatever is declared. */
  lemma CheckAsWrittenRejectsBelow16(line: string)
    requires Match(line).Some?
    requires XorValue(Match(line).value.body) < 16
    ensures ChecksumCheck(line) == Some(false)
  {
    RenderedShape(XorValue(Match(line).value.body));
  }

  /** The comparison is case-sensitive: lower-case declared digits never pass. */
  lemma CheckRejectsLowercase(line: string)
    requires Match(line).Some?
    requires exists j :: 0 <= j < 2 && 'a' <= Match(line).value.declared[j] <= 'z'
    ensures ChecksumCheck(line) == Some(false)
    ensures ChecksumCheckPadded(line) == Some(false)
  {
    RenderedShape(XorValue(Match(line).value.body));
  }

  // ---------------------------------------------------------------------------
  // Sealing a sentence: the writer side the check is the inverse of
  // ---------------------------------------------------------------------------

  /** A sentence as NMEA 0183 writes it: `!`, the body, `*`, two hex digits. */
  function Seal(body: string): string
  {
    "!" + body + "*" + PaddedHex(XorValue(body))
  }

  predicate NoNewline(s: string)
  {
    forall j :: 0 <= j < |s| ==> s[j] != '\n'
  }

  /** The two checksum digits of a sealed sentence are never line breaks. */
  lemma PaddedHexNoNewline(x: nat)
    requires x < 256
    ensures NoNewline(PaddedHex(x))
  {
  }

  /** The search finds exactly the body and the checksum of a sealed sentence. */
  lemma SealedMatch(body: string)
    requires |body| >= 1 && body[0] == 'A' && NoNewline(body)
    requires XorValue(body) < 256
    ensures Match(Seal(body)) == Some(Groups(body, PaddedHex(XorValue(body))))
  {
    var s := Seal(body);
    var n := |body|;
    var x := XorValue(body);
    assert |s| == n + 4;
    assert s[1..n + 1] == body;
    assert s[n + 2..n + 4] == PaddedHex(x);
    assert MatchesAt(s, 0, n + 1) by {
      forall j | 1 <= j < n + 4
        ensures s[j] != '\n'
      {
        if j <= n {
          assert s[j] == body[j - 1];
        } else if j == n + 1 {
          assert s[j] == '*';
        } else {
          PaddedHexNoNewline(x);
          assert s[j] == PaddedHex(x)[j - n - 2];
        }
      }
    }
    var g := Match(s).value;
    var i, k :| FirstMatchFrom(s, 0, i, k) && g == Groups(s[i + 1..k], s[k + 1..k + 3]);
    assert i == 0;
    assert k == n + 1;
  }

  /** Round trip: the corrected check accepts every sealed sentence. */
  lemma SealedLineChecks(body: string)
    requires |body| >= 1 && body[0] == 'A' && NoNewline(body)
    requires XorValue(body) < 256
    ensures ChecksumCheckPadded(Seal(body)) == Some(true)
  {
    SealedMatch(body);
  }

  /** As written, a correctly sealed sentence whose checksum is below 0x10 is
      rejected: the rendering `hex(x)[2:4]` drops the leading zero. */
  lemma SealedLineRejectedAsWritten(body: string)
    requires |body| >= 1 && body[0] == 'A' && NoNewline(body)
    requires XorValue(body) < 16
    ensures ChecksumCheck(Seal(body)) == Some(false)
    ensures ChecksumCheckPadded(Seal(body)) == Some(true)
  {
    SealedMatch(body);
    RenderedShape(XorValue(body));
  }

  /** A concrete instance: `!AB*03` carries the correct checksum of `AB`
      (0x41 XOR 0x42 = 0x03), yet the as-written check rejects it. */
  lemma LeadingZeroCounterexample()
    ensures Seal("AB") == "!AB*03"
    ensures ChecksumCheck("!AB*03") == Some(false)
    ensures ChecksumCheckPadded("!AB*03") == Some(true)
  {
    XorOfAB();
    SealOfAB();
    SealedLineRejectedAsWritten("AB");
  }

  lemma SealOfAB()
    ensures Seal("AB") == "!AB*03"
  {
    XorOfAB();
    assert PaddedHex(3) == "03";
    var s := Seal("AB");
    assert |s| == 6;
    assert s[0] == '!' && s[1] == 'A' && s[2] == 'B' && s[3] == '*' && s[4] == '0' && s[5] == '3';
  }

  /** `A` is 0x41 and `B` is 0x42, so the checksum of `AB` is 0x03. */
  lemma XorOfAB()
    ensures XorValue("AB") == 3
  {
    assert "AB"[..1] == "A";
    assert Xor("A") == 0x41;
    assert Xor("AB") == 0x03;
  }

  // ---------------------------------------------------------------------------
  // checksum_checks
  // ---------------------------------------------------------------------------

  /** The list comprehension `[check(t) for t in lines]`: one verdict per
      line, in order; `None` when some line raises. */
  function CheckLines(lines: seq<string>, check: string -> Option<bool>): (r: Option<seq<bool>>)
    ensures r.Some? <==> forall j :: 0 <= j < |lines| ==> check(lines[j]).Some?
    ensures r.Some? ==> |r.value| == |lines|
    ensures r.Some? ==> forall j :: 0 <= j < |lines| ==> Some(r.value[j]) == check(lines[j])
  {
    if |lines| == 0 then Some([])
    else
      var rest := CheckLines(lines[..|lines| - 1], check);
      var v := check(lines[|lines| - 1]);
      if rest.None? || v.None? then None else Some(rest.value + [v.value])
  }

  /** `checksum_checks(sentence)`: a one-element list for single-line text, one
      verdict per fragment line otherwise, each the as-written check of that
      line. */
  function ChecksumChecks(t: Text): (r: Option<seq<bool>>)
    ensures r.Some? <==> forall j :: 0 <= j < |SourceLines(t)| ==> Match(SourceLines(t)[j]).Some?
    ensures r.Some? ==> |r.value| == |SourceLines(t)|
    ensures t.Line? ==> (r.Some? <==> ChecksumCheck(t.line).Some?)
    ensures t.Line? && r.Some? ==> |r.value| == 1 && Some(r.value[0]) == ChecksumCheck(t.line)
    ensures r.Some? ==> forall j :: 0 <= j < |r.value| ==>
                          Some(r.value[j]) == ChecksumCheck(SourceLines(t)[j])
  {
    CheckLines(SourceLines(t), ChecksumCheck)
  }

  /** `checksum_checks` built on the corrected, zero-padded check. */
  function ChecksumChecksPadded(t: Text): (r: Option<seq<bool>>)
    ensures r.Some? <==> forall j :: 0 <= j < |SourceLines(t)| ==> Match(SourceLines(t)[j]).Some?
    ensures r.Some? ==> |r.value| == |SourceLines(t)|
    ensures t.Line? ==> (r.Some? <==> ChecksumCheckPadded(t.line).Some?)
    ensures t.Line? && r.Some? ==> |r.value| == 1 && Some(r.value[0]) == ChecksumCheckPadded(t.line)
    ensures r.Some? ==> forall j :: 0 <= j < |r.value| ==>
                          Some(r.value[j]) == ChecksumCheckPadded(SourceLines(t)[j])
  {
    CheckLines(SourceLines(t), ChecksumCheckPadded)
  }

  /** From 0x10 up to 0xFF the two checks give the same verdict: the rendering
      as written already has two digits there. */
  lemma CheckAgreesFrom16(line: string)
    requires Match(line).Some?
    requires 16 <= XorValue(Match(line).value.body) < 256
    ensures ChecksumCheck(line) == ChecksumCheckPadded(line)
  {
    RenderedShape(XorValue(Match(line).value.body));
  }

  /** `checksum_checks` of a sentence whose text is the single string `!AB*03`
      (correctly sealed) is `[False]`; the corrected version gives `[True]`. */
  lemma OneStringVerdictCounterexample()
    ensures ChecksumChecks(Line("!AB*03")) == Some([false])
    ensures ChecksumChecksPadded(Line("!AB*03")) == Some([true])
  {
    OneStringVerdictAsWritten();
    OneStringVerdictPadded();
  }

  lemma OneStringVerdictAsWritten()
    ensures ChecksumChecks(Line("!AB*03")) == Some([false])
  {
    LeadingZeroCounterexample();
    var r := ChecksumChecks(Line("!AB*03"));
    assert r.Some? && |r.value| == 1 && r.value[0] == false;
    assert r.value == [false];
  }

  lemma OneStringVerdictPadded()
    ensures ChecksumChecksPadded(Line("!AB*03")) == Some([true])
  {
    LeadingZeroCounterexample();
    var p := ChecksumChecksPadded(Line("!AB*03"));
    assert p.Some? && |p.value| == 1 && p.value[0] == true;
    assert p.value == [true];
  }
}

=== FILE: chunking.dfy ===
/** `chunks(l, n)`: successive `n`-sized slices of a sequence, and the way
    `dump` uses it to lay out a sentence's bits. */
module Chunking {
  import opened Base

  /** Concatenation of a sequence of sequences. */
  function Concat<T>(xss: seq<seq<T>>): seq<T>
  {
    if |xss| == 0 then [] else xss[0] + Concat(xss[1..])
  }

  lemma {:induction false} ConcatAppend<T>(xss: seq<seq<T>>, yss: seq<seq<T>>)
    ensures Concat(xss + yss) == Concat(xss) + Concat(yss)
  {
    if |xss| > 0 {
      assert (xss + yss)[0] == xss[0];
      assert (xss + yss)[1..] == xss[1..] + yss;
      ConcatAppend(xss[1..], yss);
    } else {
      assert xss + yss == yss;
    }
  }

  /** Every element of every inner sequence shows up in the concatenation. */
  lemma {:induction false} ConcatContains<T>(xss: seq<seq<T>>, i: nat, j: nat)
    requires i < |xss| && j < |xss[i]|
    ensures xss[i][j] in Concat(xss)
  {
    if i > 0 {
      ConcatContains(xss[1..], i - 1, j);
    } else {
      assert Concat(xss)[j] == xss[0][j];
    }
  }

  /** The chunks of `l`: they concatenate back to `l`, each holds between one
      and `n` elements, and all but the last exactly `n`. */
  function Chunks<T>(l: seq<T>, n: nat): (r: seq<seq<T>>)
    requires n > 0
    decreases |l|
    ensures Concat(r) == l
    ensures forall j :: 0 <= j < |r| ==> 0 < |r[j]| <= n
    ensures forall j :: 0 <= j < |r| - 1 ==> |r[j]| == n
  {
    if |l| == 0 then []
    else if |l| <= n then [l]
    else
      var rest := Chunks(l[n..], n);
      assert l == l[..n] + l[n..];
      [l[..n]] + rest
  }

  /** The generator loop `for i in range(0, len(l), n): yield l[i:i + n]`,
      with Python's slice clamped at the end of `l`. */
  method ChunkList<T>(l: seq<T>, n: nat) returns (r: seq<seq<T>>)
    requires n > 0
    ensures r == Chunks(l, n)
  {
    r := [];
    var i := 0;
    assert l[0..] == l;
    while i < |l|
      invariant 0 <= i <= |l|
      invariant r + Chunks(l[i..], n) == Chunks(l, n)
    {
      var end := Min(i + n, |l|);
      ChunksStep(l, i, n);
      AppendAssoc(r, [l[i..end]], Chunks(l[end..], n));
      r := r + [l[i..end]];
      i := end;
    }
    assert Chunks(l[i..], n) == [];
  }

  lemma AppendAssoc<T>(a: seq<T>, b: seq<T>, c: seq<T>)
    ensures (a + b) + c == a + (b + c)
  {
  }

  /** One turn of the loop: the chunks from `i` on are the slice starting at
      `i` followed by the chunks after it. */
  lemma ChunksStep<T>(l: seq<T>, i: nat, n: nat)
    requires n > 0 && i < |l|
    ensures Chunks(l[i..], n) == [l[i..Min(i + n, |l|)]] + Chunks(l[Min(i + n, |l|)..], n)
  {
    var rest := l[i..];
    var end := Min(i + n, |l|);
    if |rest| <= n {
      assert l[i..end] == rest;
      assert l[end..] == [];
    } else {
      assert rest[..n] == l[i..end];
      assert rest[n..] == l[end..];
    }
  }

  /** Chunking a run of full chunks followed by anything gives back those
      chunks, then the chunks of the rest. */
  lemma {:induction false} ChunksAfterFull<T>(cs: seq<seq<T>>, b: seq<T>, n: nat)
    requires n > 0
    requires forall j :: 0 <= j < |cs| ==> |cs[j]| == n
    ensures Chunks(Concat(cs) + b, n) == cs + Chunks(b, n)
  {
    if |cs| == 0 {
      assert Concat(cs) + b == b;
      assert cs + Chunks(b, n) == Chunks(b, n);
    } else {
      ConcatCons(cs);
      var tail := Concat(cs[1..]) + b;
      assert Concat(cs) + b == cs[0] + tail;
      if tail == [] {
        LastFullChunk(cs, b, n);
      } else {
        ChunksAfterFull(cs[1..], b, n);
        calc {
          Chunks(Concat(cs) + b, n);
          Chunks(cs[0] + tail, n);
          { ChunksCons(cs[0], tail, n); }
          [cs[0]] + Chunks(tail, n);
          [cs[0]] + (cs[1..] + Chunks(b, n));
          { AppendAssoc([cs[0]], cs[1..], Chunks(b, n)); }
          ([cs[0]] + cs[1..]) + Chunks(b, n);
          { assert cs == [cs[0]] + cs[1..]; }
          cs + Chunks(b, n);
        }
      }
    }
  }

  /** The case where the last full chunk ends the input. */
  lemma LastFullChunk<T>(cs: seq<seq<T>>, b: seq<T>, n: nat)
    requires n > 0 && |cs| > 0
    requires forall j :: 0 <= j < |cs| ==> |cs[j]| == n
    requires Concat(cs[1..]) + b == []
    ensures Chunks(Concat(cs) + b, n) == cs + Chunks(b, n)
  {
    assert |Concat(cs[1..])| == 0 && b == [];
    FullChunksNonEmpty(cs[1..], n);
    assert cs == [cs[0]];
    ConcatCons(cs);
    assert Concat(cs) + b == cs[0];
    assert Chunks(cs[0], n) == [cs[0]];
    assert Chunks(b, n) == [];
  }

  lemma ConcatCons<T>(xss: seq<seq<T>>)
    requires |xss| > 0
    ensures Concat(xss) == xss[0] + Concat(xss[1..])
  {
  }

  lemma FullChunksNonEmpty<T>(cs: seq<seq<T>>, n: nat)
    requires n > 0
    requires forall j :: 0 <= j < |cs| ==> |cs[j]| == n
    ensures Concat(cs) == [] <==> cs == []
  {
    if |cs| > 0 {
      ConcatCons(cs);
    }
  }

  /** A full chunk in front of a non-empty rest is split off first. */
  lemma ChunksCons<T>(c: seq<T>, rest: seq<T>, n: nat)
    requires n > 0 && |c| == n && rest != []
    ensures Chunks(c + rest, n) == [c] + Chunks(rest, n)
  {
    var l := c + rest;
    assert l[..n] == c;
    assert l[n..] == rest;
  }

  /** `dump`'s bit layout: the bit string in 6-bit lumps, ten lumps per row. Read
      back in order the rows give exactly the bits; a row holds at most ten
      lumps and a lump at most six bits. */
  function DumpRows(bits: string): (rows: seq<seq<string>>)
    ensures Concat(Concat(rows)) == bits
    ensures forall i :: 0 <= i < |rows| ==> 0 < |rows[i]| <= 10
    ensures forall i, j :: 0 <= i < |rows| && 0 <= j < |rows[i]| ==> 0 < |rows[i][j]| <= 6
    ensures forall i :: 0 <= i < |rows| - 1 ==> |rows[i]| == 10
    ensures forall j :: 0 <= j < |Concat(rows)| - 1 ==> |Concat(rows)[j]| == 6
    ensures bits != [] <==> rows != []
  {
    var lumps := Chunks(bits, 6);
    var rows := Chunks(lumps, 10);
    assert forall i, j :: 0 <= i < |rows| && 0 <= j < |rows[i]| ==> rows[i][j] in lumps by {
      forall i, j | 0 <= i < |rows| && 0 <= j < |rows[i]|
        ensures rows[i][j] in lumps
      {
        ConcatContains(rows, i, j);
      }
    }
    rows
  }
}

=== FILE: counter.dfy ===
/** `defaultdict(int)` used as a counter: a missing key reads as zero and
    `c[k] += 1` creates it. */
module Counter {

  /** The count of key `k`, zero when absent. */
  function Get<K>(c: map<K, nat>, k: K): nat
  {
    if k in c then c[k] else 0
  }

  /** Some key of a non-empty counter. */
  ghost function Pick<K>(c: map<K, nat>): (k: K)
    requires |c| > 0
    ensures k in c
  {
    assert c.Keys != {} by {
      assert |c.Keys| == |c|;
    }
    var k :| k in c; k
  }

  /** The sum of all counts. */
  ghost function Total<K>(c: map<K, nat>): nat
    decreases |c|
  {
    if |c| == 0 then 0
    else
      var k := Pick(c);
      RemoveShrinks(c, k);
      c[k] + Total(c - {k})
  }

  /** The sum does not depend on which key is taken out first. */
  lemma {:induction false} TotalRemove<K>(c: map<K, nat>, k: K)
    requires k in c
    decreases |c|
    ensures Total(c) == c[k] + Total(c - {k})
  {
    var p := Pick(c);
    if p != k {
      RemoveShrinks(c, p);
      RemoveShrinks(c, k);
      RemoveSwap(c, k, p);
      TotalRemove(c - {p}, k);
      TotalRemove(c - {k}, p);
    }
  }

  lemma RemoveShrinks<K>(c: map<K, nat>, k: K)
    requires k in c
    ensures |c - {k}| == |c| - 1
  {
    assert (c - {k}).Keys == c.Keys - {k};
  }

  lemma RemoveSwap<K>(c: map<K, nat>, k: K, k': K)
    requires k in c && k' in c && k != k'
    ensures k in c - {k'} && k' in c - {k}
    ensures (c - {k'}) - {k} == (c - {k}) - {k'}
  {
  }

  /** `c[k] += 1` on a `defaultdict(int)`: key `k` goes up by one, every other
      count is unchanged, `k` becomes a key, and the sum of all counts grows by
      exactly one. */
  function Bump<K(!new)>(c: map<K, nat>, k: K): (r: map<K, nat>)
    ensures Get(r, k) == Get(c, k) + 1
    ensures forall k' :: k' != k ==> Get(r, k') == Get(c, k')
    ensures r.Keys == c.Keys + {k}
    ensures Total(r) == Total(c) + 1
  {
    TotalBump(c, k);
    c[k := Get(c, k) + 1]
  }

  lemma TotalBump<K>(c: map<K, nat>, k: K)
    ensures Total(c[k := Get(c, k) + 1]) == Total(c) + 1
  {
    var r := c[k := Get(c, k) + 1];
    TotalRemove(r, k);
    if k in c {
      TotalRemove(c, k);
      assert r - {k} == c - {k};
    } else {
      assert r - {k} == c;
    }
  }
}

=== FILE: fieldmap.dfy ===
/** `Fields`: a string-to-string map whose setter stores the stripped value and
    silently drops empty keys and blank values. */
module FieldMap {
  import opened Base
  import opened PyStr

  datatype Fields = Fields(values: map<string, string>)

  /** `Fields()`: nothing stored. */
  const Empty: Fields := Fields(map[])

  /** What the setter guarantees of every stored entry: a non-empty key and a
      non-empty value that is already stripped. */
  ghost predicate Valid(f: Fields)
  {
    forall k :: k in f.values ==> k != [] && f.values[k] != [] && Strip(f.values[k]) == f.values[k]
  }

  /** `f[key] = value`. */
  function Set(f: Fields, key: string, value: string): (r: Fields)
    ensures key != [] && Strip(value) != [] ==> key in r.values && r.values[key] == Strip(value)
    ensures key == [] || SpaceBetween(value, 0, |value|) ==> r == f
    ensures forall k :: k != key ==> (k in r.values <==> k in f.values)
    ensures forall k :: k != key && k in f.values ==> r.values[k] == f.values[k]
    ensures key in r.values <==> key in f.values || (key != [] && Strip(value) != [])
  {
    var v := Strip(value);
    if key != [] && v != [] then
      Fields(f.values[key := v])
    else
      f
  }

  /** Setting keeps every stored entry well-formed. */
  lemma SetKeepsValid(f: Fields, key: string, value: string)
    requires Valid(f)
    ensures Valid(Set(f, key, value))
  {
    var r := Set(f, key, value);
    forall k | k in r.values
      ensures k != [] && r.values[k] != [] && Strip(r.values[k]) == r.values[k]
    {
      if k == key && key != [] && Strip(value) != [] {
        StripIdempotent(value);
      } else {
        assert k in f.values && r.values[k] == f.values[k];
      }
    }
  }

  /** `f[key]`; `None` where Python raises `KeyError`. */
  function Get(f: Fields, key: string): (r: Option<string>)
    ensures r.Some? <==> key in f.values
    ensures r.Some? ==> r.value == f.values[key]
  {
    if key in f.values then Some(f.values[key]) else None
  }

  /** Iterating a `Fields` yields its keys. */
  function Keys(f: Fields): set<string>
  {
    f.values.Keys
  }

  /** Reading back a key just set gives the stripped value; a blank value or an
      empty key leaves what was there. */
  lemma GetAfterSet(f: Fields, key: string, value: string, other: string)
    ensures Get(Set(f, key, value), key) ==
              (if key != [] && Strip(value) != [] then Some(Strip(value)) else Get(f, key))
    ensures other != key ==> Get(Set(f, key, value), other) == Get(f, other)
  {
  }

  /** A later valid set for the same key overwrites the earlier one. */
  lemma SetOverwrites(f: Fields, key: string, v1: string, v2: string)
    requires Strip(v2) != []
    ensures Set(Set(f, key, v1), key, v2) == Set(f, key, v2)
  {
    if key != [] {
      var s2 := Strip(v2);
      var mid := Set(f, key, v1).values;
      assert Set(Set(f, key, v1), key, v2).values == mid[key := s2];
      assert Set(f, key, v2).values == f.values[key := s2];
      assert mid.Keys + {key} == f.values.Keys + {key};
      assert mid[key := s2] == f.values[key := s2];
    }
  }

  /** Sets on different keys commute. */
  lemma SetCommutes(f: Fields, k1: string, v1: string, k2: string, v2: string)
    requires k1 != k2
    ensures Set(Set(f, k1, v1), k2, v2) == Set(Set(f, k2, v2), k1, v1)
  {
    var s1, s2 := Strip(v1), Strip(v2);
    var ok1, ok2 := k1 != [] && s1 != [], k2 != [] && s2 != [];
    if ok1 && ok2 {
      assert f.values[k1 := s1][k2 := s2] == f.values[k2 := s2][k1 := s1];
    }
  }
}

=== FILE: grep.dfy ===
/** The `grep` command's filter: which sentences it prints, given the MMSI,
    type, latitude and longitude options. */
module Grep {
  import opened Base
  import opened PyStr
  import opened Sentences

  /** The command's options: the MMSI collection (empty when none was given),
      `--type`, and the two-value `--lat` and `--lon` ranges. */
  datatype Filter = Filter(
    mmsis: set<string>,
    sentenceType: Option<int>,
    lat: Option<(real, real)>,
    lon: Option<(real, real)>)

  /** No option given. */
  const NoFilter: Filter := Filter({}, None, None, None)

  /** The MMSIs to look for: those given with `--mmsi`, plus each line of the
      `--mmsi-file` stripped, when a file is given. */
  function MmsiSet(given: seq<string>, fileLines: Option<seq<string>>): (r: set<string>)
    ensures forall m :: m in given ==> m in r
    ensures fileLines.Some? ==> forall l :: l in fileLines.value ==> Strip(l) in r
    ensures forall m :: m in r ==> m in given || (fileLines.Some? && exists l :: l in fileLines.value && Strip(l) == m)
  {
    var fromGiven := set m | m in given;
    match fileLines
    case None => fromGiven
    case Some(ls) => fromGiven + set l | l in ls :: Strip(l)
  }

  /** With a file, the MMSI filter is switched on exactly when some MMSI was
      given or the file has a line, blank or not. */
  lemma MmsiSetNonEmpty(given: seq<string>, ls: seq<string>)
    ensures |MmsiSet(given, Some(ls))| > 0 <==> |given| > 0 || |ls| > 0
  {
    var r := MmsiSet(given, Some(ls));
    if |given| > 0 {
      assert given[0] in r;
    } else if |ls| > 0 {
      assert Strip(ls[0]) in r;
    } else {
      assert r == {};
    }
  }

  /** A file of blank lines switches the MMSI filter on with only the empty
      MMSI in it, so no sentence with a truthy MMSI is printed. */
  lemma BlankMmsiFileSelectsNoTruthyMmsi(ls: seq<string>, f: Filter, s: Sentence)
    requires |ls| > 0
    requires forall j :: 0 <= j < |ls| ==> Strip(ls[j]) == []
    requires f.mmsis == MmsiSet([], Some(ls))
    requires TruthyText(s.mmsi)
    ensures f.mmsis == {[]}
    ensures !Selected(f, s)
  {
    assert Strip(ls[0]) in f.mmsis;
    forall m | m in f.mmsis
      ensures m == []
    {
      var l :| l in ls && Strip(l) == m;
    }
  }

  /** Python truthiness of the `--type` option: given and non-zero, so
      `--type 0` filters nothing. */
  predicate TypeFilterOn(f: Filter)
  {
    f.sentenceType.Some? && f.sentenceType.value != 0
  }

  /** `sentence['lat'] and lo < sentence['lat'] < hi`, as a truth value. */
  predicate InOpenRange(v: Option<real>, range: (real, real))
  {
    TruthyReal(v) && range.0 < v.value < range.1
  }

  /** The `factors` list built for one sentence, `[True]` followed by one entry
      per enabled option. */
  function Factors(f: Filter, s: Sentence): seq<bool>
  {
    [true]
    + (if |f.mmsis| > 0 then [s.mmsi.Some? && s.mmsi.value in f.mmsis] else [])
    + (if TypeFilterOn(f) then [s.typeId == f.sentenceType.value] else [])
    + (if f.lat.Some? then [InOpenRange(s.lat, f.lat.value)] else [])
    + (if f.lon.Some? then [InOpenRange(s.lon, f.lon.value)] else [])
  }

  /** `functools.reduce(lambda x, y: x and y, factors)`, read as a truth value. */
  function AllTrue(bs: seq<bool>): (r: bool)
    ensures r <==> forall j :: 0 <= j < |bs| ==> bs[j]
  {
    if |bs| == 0 then true else AllTrue(bs[..|bs| - 1]) && bs[|bs| - 1]
  }

  /** Whether `grep` prints the sentence: every enabled filter holds. The MMSI
      filter is enabled by a non-empty collection, the type filter by a
      non-zero type, each range filter by being given; a range filter needs a
      truthy (present, non-zero) coordinate strictly inside the range. */
  function Selected(f: Filter, s: Sentence): (r: bool)
    ensures r <==>
              && (|f.mmsis| > 0 ==> s.mmsi.Some? && s.mmsi.value in f.mmsis)
              && (TypeFilterOn(f) ==> s.typeId == f.sentenceType.value)
              && (f.lat.Some? ==> TruthyReal(s.lat) && f.lat.value.0 < s.lat.value < f.lat.value.1)
              && (f.lon.Some? ==> TruthyReal(s.lon) && f.lon.value.0 < s.lon.value < f.lon.value.1)
  {
    var m := if |f.mmsis| > 0 then [s.mmsi.Some? && s.mmsi.value in f.mmsis] else [];
    var t := if TypeFilterOn(f) then [s.typeId == f.sentenceType.value] else [];
    var la := if f.lat.Some? then [InOpenRange(s.lat, f.lat.value)] else [];
    var lo := if f.lon.Some? then [InOpenRange(s.lon, f.lon.value)] else [];
    assert Factors(f, s) == [true] + m + t + la + lo;
    assert AllTrue([true]) by {
      assert [true][..0] == [];
    }
    AllTrueExtend([true], m);
    AllTrueExtend([true] + m, t);
    AllTrueExtend([true] + m + t, la);
    AllTrueExtend([true] + m + t + la, lo);
    AllTrue(Factors(f, s))
  }

  /** `reduce` over one more factor (or none). */
  lemma AllTrueExtend(p: seq<bool>, q: seq<bool>)
    requires |q| <= 1
    ensures AllTrue(p + q) == (AllTrue(p) && (q == [] || q[0]))
  {
    if q == [] {
      assert p + q == p;
    } else {
      assert (p + q)[..|p|] == p;
    }
  }

  /** With no option given every sentence passes; `--type 0` is the same as no
      `--type`. */
  lemma NoFilterSelectsAll(s: Sentence, f: Filter)
    ensures Selected(NoFilter, s)
    ensures f.sentenceType == Some(0) ==> Selected(f, s) == Selected(f.(sentenceType := None), s)
  {
  }

  /** The lines `grep` prints for a stream of sentences: the source text of each
      selected sentence, in order. */
  function GrepLines(f: Filter, ss: seq<Sentence>): seq<string>
  {
    if |ss| == 0 then []
    else
      var s := ss[|ss| - 1];
      GrepLines(f, ss[..|ss| - 1]) + (if Selected(f, s) then SourceLines(s.text) else [])
  }

  /** Every sentence's text, in order. */
  function AllLines(ss: seq<Sentence>): seq<string>
  {
    if |ss| == 0 then [] else AllLines(ss[..|ss| - 1]) + SourceLines(ss[|ss| - 1].text)
  }

  /** Filtering a stream piecewise gives the same output as filtering it whole. */
  lemma {:induction false} GrepAppend(f: Filter, a: seq<Sentence>, b: seq<Sentence>)
    decreases |b|
    ensures GrepLines(f, a + b) == GrepLines(f, a) + GrepLines(f, b)
  {
    if |b| == 0 {
      assert a + b == a;
    } else {
      var s := b[|b| - 1];
      var tail := if Selected(f, s) then SourceLines(s.text) else [];
      assert (a + b)[..|a + b| - 1] == a + b[..|b| - 1];
      assert (a + b)[|a + b| - 1] == s;
      assert GrepLines(f, a + b) == GrepLines(f, a + b[..|b| - 1]) + tail;
      assert GrepLines(f, b) == GrepLines(f, b[..|b| - 1]) + tail;
      GrepAppend(f, a, b[..|b| - 1]);
    }
  }

  /** With no option given `grep` echoes its whole input. */
  lemma {:induction false} GrepNoFilterEchoes(ss: seq<Sentence>)
    ensures GrepLines(NoFilter, ss) == AllLines(ss)
  {
    if |ss| > 0 {
      GrepNoFilterEchoes(ss[..|ss| - 1]);
      NoFilterSelectsAll(ss[|ss| - 1], NoFilter);
    }
  }

  /** A sentence's lines appear in the output iff the sentence is selected. */
  lemma GrepSingle(f: Filter, s: Sentence)
    ensures GrepLines(f, [s]) == (if Selected(f, s) then SourceLines(s.text) else [])
  {
    assert [s][..0] == [];
  }
}

=== FILE: info.dfy ===
/** `SenderInfo` and `SentencesInfo`: the per-sender and overall tallies behind
    the `info` command. */
module Info {
  import opened Base
  import opened PyStr
  import opened Sentences
  import opened Counter
  import opened Bounds
  import FieldMap

  // ---------------------------------------------------------------------------
  // Reference counts over a history of sentences
  // ---------------------------------------------------------------------------

  /** How many of `ss` have type id `t`. */
  function CountType(ss: seq<Sentence>, t: nat): nat
  {
    if |ss| == 0 then 0
    else CountType(ss[..|ss| - 1], t) + (if ss[|ss| - 1].typeId == t then 1 else 0)
  }

  /** How many of `ss` have MMSI `m` (possibly absent). */
  function CountSender(ss: seq<Sentence>, m: Option<string>): nat
  {
    if |ss| == 0 then 0
    else CountSender(ss[..|ss| - 1], m) + (if ss[|ss| - 1].mmsi == m then 1 else 0)
  }

  // ---------------------------------------------------------------------------
  // SenderInfo
  // ---------------------------------------------------------------------------

  datatype SenderInfo = SenderInfo(
    mmsi: Option<string>,
    sentenceCount: nat,
    typeCounts: map<nat, nat>,
    fields: FieldMap.Fields)

  /** `SenderInfo()`. */
  const NewSenderInfo: SenderInfo := SenderInfo(None, 0, map[], FieldMap.Empty)

  /** The conservation invariant: the sentence count is the sum of the per-type
      counts. */
  ghost predicate SenderConserved(si: SenderInfo)
  {
    si.sentenceCount == Total(si.typeCounts)
  }

  /** `SenderInfo.add(sentence)`: one more sentence, one more in exactly its
      type's bucket; the MMSI is taken from the sentence while the stored one
      is still falsy; ship name and destination are recorded from type 5
      sentences only. */
  function SenderAdd(si: SenderInfo, s: Sentence): (r: SenderInfo)
    ensures s.typeId != StaticVoyageType ==> r.fields == si.fields
    ensures FieldMap.Keys(r.fields) <= FieldMap.Keys(si.fields) + {"shipname", "destination"}
    ensures s.typeId == StaticVoyageType && Strip(s.shipname) != [] ==>
              FieldMap.Get(r.fields, "shipname") == Some(Strip(s.shipname))
    ensures s.typeId == StaticVoyageType && Strip(s.destination) != [] ==>
              FieldMap.Get(r.fields, "destination") == Some(Strip(s.destination))
    ensures Strip(s.shipname) == [] ==>
              FieldMap.Get(r.fields, "shipname") == FieldMap.Get(si.fields, "shipname")
    ensures Strip(s.destination) == [] ==>
              FieldMap.Get(r.fields, "destination") == FieldMap.Get(si.fields, "destination")
    ensures forall k :: k != "shipname" && k != "destination" ==>
              FieldMap.Get(r.fields, k) == FieldMap.Get(si.fields, k)
    ensures r.sentenceCount == si.sentenceCount + 1
    ensures Get(r.typeCounts, s.typeId) == Get(si.typeCounts, s.typeId) + 1
    ensures forall t :: t != s.typeId ==> Get(r.typeCounts, t) == Get(si.typeCounts, t)
    ensures Total(r.typeCounts) == Total(si.typeCounts) + 1
    ensures r.typeCounts.Keys == si.typeCounts.Keys + {s.typeId}
    ensures TruthyText(si.mmsi) ==> r.mmsi == si.mmsi
    ensures !TruthyText(si.mmsi) ==> r.mmsi == s.mmsi
  {
    var mmsi := if !TruthyText(si.mmsi) then s.mmsi else si.mmsi;
    var fields := VoyageFields(si.fields, s);
    SenderInfo(mmsi, si.sentenceCount + 1, Bump(si.typeCounts, s.typeId), fields)
  }

  /** The type 5 step of `add`: ship name, then destination, through the
      `Fields` setter; other types leave the fields alone. */
  function VoyageFields(f: FieldMap.Fields, s: Sentence): (r: FieldMap.Fields)
    ensures s.typeId != StaticVoyageType ==> r == f
    ensures FieldMap.Keys(r) <= FieldMap.Keys(f) + {"shipname", "destination"}
    ensures s.typeId == StaticVoyageType && Strip(s.shipname) != [] ==>
              FieldMap.Get(r, "shipname") == Some(Strip(s.shipname))
    ensures s.typeId == StaticVoyageType && Strip(s.destination) != [] ==>
              FieldMap.Get(r, "destination") == Some(Strip(s.destination))
    ensures Strip(s.shipname) == [] ==>
              FieldMap.Get(r, "shipname") == FieldMap.Get(f, "shipname")
    ensures Strip(s.destination) == [] ==>
              FieldMap.Get(r, "destination") == FieldMap.Get(f, "destination")
    ensures forall k :: k != "shipname" && k != "destination" ==>
              FieldMap.Get(r, k) == FieldMap.Get(f, k)
  {
    if s.typeId == StaticVoyageType then
      FieldMap.Set(FieldMap.Set(f, "shipname", s.shipname), "destination", s.destination)
    else
      f
  }

  /** `add` applied to each sentence in turn, starting from `SenderInfo()`. */
  function SenderHistory(ss: seq<Sentence>): SenderInfo
  {
    if |ss| == 0 then NewSenderInfo else SenderAdd(SenderHistory(ss[..|ss| - 1]), ss[|ss| - 1])
  }

  /** After any history the count is the number of sentences, equal to the sum
      of the per-type counts, and each type's count is how many sentences of
      that type there were. */
  lemma {:induction false} SenderHistoryCounts(ss: seq<Sentence>)
    ensures SenderHistory(ss).sentenceCount == |ss|
    ensures SenderConserved(SenderHistory(ss))
    ensures forall t :: Get(SenderHistory(ss).typeCounts, t) == CountType(ss, t)
  {
    if |ss| > 0 {
      SenderHistoryCounts(ss[..|ss| - 1]);
    }
  }

  /** While no sentence has had a truthy MMSI, the stored MMSI is the latest
      sentence's (falsy) one, or `None` before any sentence. */
  lemma {:induction false} SenderMmsiNoneTruthy(ss: seq<Sentence>)
    requires forall i :: 0 <= i < |ss| ==> !TruthyText(ss[i].mmsi)
    ensures SenderHistory(ss).mmsi == (if |ss| == 0 then None else ss[|ss| - 1].mmsi)
    ensures !TruthyText(SenderHistory(ss).mmsi)
  {
    if |ss| > 0 {
      SenderMmsiNoneTruthy(ss[..|ss| - 1]);
    }
  }

  /** The stored MMSI is that of the first sentence whose MMSI is truthy, and
      later sentences never replace it. */
  lemma {:induction false} SenderMmsiFirstTruthy(ss: seq<Sentence>, j: nat)
    requires j < |ss| && TruthyText(ss[j].mmsi)
    requires forall i :: 0 <= i < j ==> !TruthyText(ss[i].mmsi)
    ensures SenderHistory(ss).mmsi == ss[j].mmsi
  {
    var init := ss[..|ss| - 1];
    if j == |ss| - 1 {
      SenderMmsiNoneTruthy(init);
    } else {
      SenderMmsiFirstTruthy(init, j);
    }
  }

  /** Only ship name and destination are ever recorded, always stripped and
      non-blank. */
  lemma {:induction false} SenderHistoryFields(ss: seq<Sentence>)
    ensures FieldMap.Keys(SenderHistory(ss).fields) <= {"shipname", "destination"}
    ensures FieldMap.Valid(SenderHistory(ss).fields)
  {
    if |ss| > 0 {
      var init := ss[..|ss| - 1];
      SenderHistoryFields(init);
      SenderAddKeepsFieldsValid(SenderHistory(init), ss[|ss| - 1]);
    }
  }

  /** Nothing is recorded until a type 5 sentence arrives. */
  lemma {:induction false} SenderFieldsNeedType5(ss: seq<Sentence>)
    requires forall i :: 0 <= i < |ss| ==> ss[i].typeId != StaticVoyageType
    ensures SenderHistory(ss).fields == FieldMap.Empty
  {
    if |ss| > 0 {
      SenderFieldsNeedType5(ss[..|ss| - 1]);
    }
  }

  lemma SenderAddKeepsFieldsValid(si: SenderInfo, s: Sentence)
    requires FieldMap.Valid(si.fields)
    ensures FieldMap.Valid(SenderAdd(si, s).fields)
  {
    if s.typeId == StaticVoyageType {
      var f := FieldMap.Set(si.fields, "shipname", s.shipname);
      FieldMap.SetKeepsValid(si.fields, "shipname", s.shipname);
      FieldMap.SetKeepsValid(f, "destination", s.destination);
    }
  }

  // ---------------------------------------------------------------------------
  // SentencesInfo
  // ---------------------------------------------------------------------------

  datatype SentencesInfo = SentencesInfo(
    sentenceCount: nat,
    typeCounts: map<nat, nat>,
    senderCounts: map<Option<string>, nat>,
    geo: GeoInfo)

  /** `SentencesInfo()`. */
  const NewSentencesInfo: SentencesInfo := SentencesInfo(0, map[], map[], NewGeoInfo)

  /** A decoded sentence that has a (truthy) latitude also has a longitude. */
  predicate HasLonWithLat(s: Sentence)
  {
    TruthyReal(s.lat) ==> s.lon.Some?
  }

  /** The conservation invariant: the sentence count equals the sum of the
      per-type counts and the sum of the per-sender counts. */
  ghost predicate SummaryConserved(info: SentencesInfo)
  {
    && info.sentenceCount == Total(info.typeCounts)
    && info.sentenceCount == Total(info.senderCounts)
  }

  /** `SentencesInfo.add(sentence)`: one more sentence, one more in exactly its
      type's bucket and exactly its sender's bucket; the position is added to
      the bounds only when the latitude is truthy, so a latitude of exactly 0
      is skipped. */
  function SummaryAdd(info: SentencesInfo, s: Sentence): (r: SentencesInfo)
    requires GeoConsistent(info.geo) && HasLonWithLat(s)
    ensures GeoConsistent(r.geo) && TakesIn(info.geo, r.geo, s)
    ensures r.sentenceCount == info.sentenceCount + 1
    ensures Get(r.typeCounts, s.typeId) == Get(info.typeCounts, s.typeId) + 1
    ensures forall t :: t != s.typeId ==> Get(r.typeCounts, t) == Get(info.typeCounts, t)
    ensures Get(r.senderCounts, s.mmsi) == Get(info.senderCounts, s.mmsi) + 1
    ensures forall m :: m != s.mmsi ==> Get(r.senderCounts, m) == Get(info.senderCounts, m)
    ensures Total(r.typeCounts) == Total(info.typeCounts) + 1
    ensures Total(r.senderCounts) == Total(info.senderCounts) + 1
    ensures r.typeCounts.Keys == info.typeCounts.Keys + {s.typeId}
    ensures r.senderCounts.Keys == info.senderCounts.Keys + {s.mmsi}
  {
    var types := Bump(info.typeCounts, s.typeId);
    var senders := Bump(info.senderCounts, s.mmsi);
    var geo := GeoStep(info.geo, s);
    SentencesInfo(info.sentenceCount + 1, types, senders, geo)
  }

  /** `r` is what the bounds `g` become after sentence `s`: unchanged when the
      latitude is falsy (a latitude of exactly 0 included), otherwise valid and
      widened per coordinate to take in the position while keeping what they
      held. */
  predicate TakesIn(g: GeoInfo, r: GeoInfo, s: Sentence)
    requires HasLonWithLat(s)
  {
    && (!TruthyReal(s.lat) ==> r == g)
    && (TruthyReal(s.lat) ==>
          && GeoValid(r)
          && Widens(g.lat, r.lat, s.lat.value)
          && Widens(g.lon, r.lon, s.lon.value))
  }

  /** The `if sentence['lat']:` step of `add`. */
  function GeoStep(g: GeoInfo, s: Sentence): (r: GeoInfo)
    requires GeoConsistent(g) && HasLonWithLat(s)
    ensures GeoConsistent(r) && TakesIn(g, r, s)
  {
    if TruthyReal(s.lat) then GeoAdd(g, s.lat.value, s.lon.value) else g
  }

  /** `add` applied to each sentence in turn, starting from `SentencesInfo()`. */
  function SummaryHistory(ss: seq<Sentence>): (r: SentencesInfo)
    requires forall i :: 0 <= i < |ss| ==> HasLonWithLat(ss[i])
    ensures GeoConsistent(r.geo)
  {
    if |ss| == 0 then NewSentencesInfo
    else SummaryAdd(SummaryHistory(ss[..|ss| - 1]), ss[|ss| - 1])
  }

  /** After any history the count is the number of sentences and equals both
      the sum of the per-type counts and the sum of the per-sender counts. */
  lemma {:induction false} SummaryHistoryCounts(ss: seq<Sentence>)
    requires forall i :: 0 <= i < |ss| ==> HasLonWithLat(ss[i])
    ensures SummaryHistory(ss).sentenceCount == |ss|
    ensures SummaryConserved(SummaryHistory(ss))
  {
    if |ss| > 0 {
      SummaryHistoryCounts(ss[..|ss| - 1]);
    }
  }

  /** Each type bucket holds how many sentences had that type, and each sender
      bucket how many had that MMSI. */
  lemma {:induction false} SummaryHistoryBuckets(ss: seq<Sentence>)
    requires forall i :: 0 <= i < |ss| ==> HasLonWithLat(ss[i])
    ensures forall t :: Get(SummaryHistory(ss).typeCounts, t) == CountType(ss, t)
    ensures forall m :: Get(SummaryHistory(ss).senderCounts, m) == CountSender(ss, m)
  {
    if |ss| > 0 {
      SummaryHistoryBuckets(ss[..|ss| - 1]);
    }
  }

  /** The latitudes (or longitudes) of the sentences whose latitude is truthy,
      in order. */
  function Lats(ss: seq<Sentence>): seq<real>
    requires forall i :: 0 <= i < |ss| ==> HasLonWithLat(ss[i])
  {
    if |ss| == 0 then []
    else
      var s := ss[|ss| - 1];
      Lats(ss[..|ss| - 1]) + (if TruthyReal(s.lat) then [s.lat.value] else [])
  }

  function Lons(ss: seq<Sentence>): seq<real>
    requires forall i :: 0 <= i < |ss| ==> HasLonWithLat(ss[i])
  {
    if |ss| == 0 then []
    else
      var s := ss[|ss| - 1];
      assert HasLonWithLat(s);
      Lons(ss[..|ss| - 1]) + (if TruthyReal(s.lat) then [s.lon.value] else [])
  }

  /** The bounds after a history are those of feeding exactly the positions with
      a truthy latitude to a fresh `GeoInfo`. */
  lemma {:induction false} SummaryHistoryGeo(ss: seq<Sentence>)
    requires forall i :: 0 <= i < |ss| ==> HasLonWithLat(ss[i])
    ensures SummaryHistory(ss).geo.lat == AddAll(NewMaxMin(None), Lats(ss))
    ensures SummaryHistory(ss).geo.lon == AddAll(NewMaxMin(None), Lons(ss))
  {
    if |ss| > 0 {
      var init := ss[..|ss| - 1];
      SummaryHistoryGeo(init);
      var s := ss[|ss| - 1];
      if TruthyReal(s.lat) {
        assert Lats(ss)[..|Lats(ss)| - 1] == Lats(init);
        assert Lons(ss)[..|Lons(ss)| - 1] == Lons(init);
      } else {
        assert Lats(ss) == Lats(init);
        assert Lons(ss) == Lons(init);
      }
    }
  }

  /** Hence, once some sentence had a truthy latitude, the reported bounds are
      exactly the least and greatest coordinates among those positions. */
  lemma SummaryBoundsExact(ss: seq<Sentence>)
    requires forall i :: 0 <= i < |ss| ==> HasLonWithLat(ss[i])
    requires |Lats(ss)| > 0
    ensures Brackets(SummaryHistory(ss).geo.lat, Elements(Lats(ss)))
    ensures Brackets(SummaryHistory(ss).geo.lon, Elements(Lons(ss)))
  {
    SummaryHistoryGeo(ss);
    LatsLonsSameLength(ss);
    AddAllBrackets(Lats(ss));
    AddAllBrackets(Lons(ss));
  }

  lemma {:induction false} LatsLonsSameLength(ss: seq<Sentence>)
    requires forall i :: 0 <= i < |ss| ==> HasLonWithLat(ss[i])
    ensures |Lats(ss)| == |Lons(ss)|
  {
    if |ss| > 0 {
      LatsLonsSameLength(ss[..|ss| - 1]);
    }
  }
}

=== FILE: pystr.dfy ===
/** The part of Python's `str` behaviour the tools rely on: `isspace` and `strip()`. */
module PyStr {

  /** Python's `str.isspace` for a single character: exactly the characters that
      `str.strip()` with no argument removes. */
  predicate IsSpace(c: char)
  {
    c in Whitespace
  }

  /** The characters for which Python's `str.isspace` holds. */
  const Whitespace: set<char> :=
    {'\U{0009}', '\U{000A}', '\U{000B}', '\U{000C}', '\U{000D}',
     '\U{001C}', '\U{001D}', '\U{001E}', '\U{001F}', '\U{0020}',
     '\U{0085}', '\U{00A0}', '\U{1680}',
     '\U{2000}', '\U{2001}', '\U{2002}', '\U{2003}', '\U{2004}', '\U{2005}',
     '\U{2006}', '\U{2007}', '\U{2008}', '\U{2009}', '\U{200A}',
     '\U{2028}', '\U{2029}', '\U{202F}', '\U{205F}', '\U{3000}'}

  /** Every character of `s` in positions `lo .. hi-1` is whitespace. */
  ghost predicate SpaceBetween(s: string, lo: int, hi: int)
  {
    forall j :: lo <= j < hi && 0 <= j < |s| ==> IsSpace(s[j])
  }

  /** `r` sits in `s` at offset `a`, with only whitespace before and after it. */
  ghost predicate PaddedAt(s: string, a: int, r: string)
  {
    && 0 <= a && a + |r| <= |s|
    && r == s[a..a + |r|]
    && SpaceBetween(s, 0, a)
    && SpaceBetween(s, a + |r|, |s|)
  }

  /** The first position at or after `i` that does not hold whitespace (`|s|`
      when there is none). */
  function SkipLeft(s: string, i: nat): (k: nat)
    requires i <= |s|
    ensures i <= k <= |s|
    ensures SpaceBetween(s, i, k)
    ensures k < |s| ==> !IsSpace(s[k])
    decreases |s| - i
  {
    if i < |s| && IsSpace(s[i]) then SkipLeft(s, i + 1) else i
  }

  /** The end of `s[lo..hi]` once its trailing whitespace is dropped. */
  function SkipRight(s: string, lo: nat, hi: nat): (k: nat)
    requires lo <= hi <= |s|
    ensures lo <= k <= hi
    ensures SpaceBetween(s, k, hi)
    ensures lo < k ==> !IsSpace(s[k - 1])
    decreases hi - lo
  {
    if lo < hi && IsSpace(s[hi - 1]) then SkipRight(s, lo, hi - 1) else hi
  }

  /** Where the strip of `s` starts. */
  function StripStart(s: string): (a: nat)
    ensures a <= |s|
  {
    SkipLeft(s, 0)
  }

  /** Where the strip of `s` ends. */
  function StripEnd(s: string): (b: nat)
    ensures StripStart(s) <= b <= |s|
  {
    SkipRight(s, StripStart(s), |s|)
  }

  /** Python's `s.strip()`: the run of `s` left after removing leading and
      trailing whitespace; it sits in `s` with only whitespace around it, its ends
      are not whitespace, and it is empty exactly when `s` is all whitespace. */
  function Strip(s: string): (r: string)
    ensures PaddedAt(s, StripStart(s), r)
    ensures r != [] ==> !IsSpace(r[0]) && !IsSpace(r[|r| - 1])
    ensures r == [] <==> SpaceBetween(s, 0, |s|)
  {
    var a := StripStart(s);
    var b := StripEnd(s);
    assert b == a ==> SpaceBetween(s, 0, |s|) by {
      if b == a {
        SpaceJoin(s, a);
      }
    }
    assert a < b ==> s[a] == s[a..b][0];
    s[a..b]
  }

  lemma SpaceJoin(s: string, a: int)
    requires SpaceBetween(s, 0, a) && SpaceBetween(s, a, |s|)
    ensures SpaceBetween(s, 0, |s|)
  {
  }

  /** The padding characterisation pins `Strip(s)` down uniquely: a run of `s`
      with only whitespace around it and non-whitespace ends is the strip. */
  lemma StripUnique(s: string, a: int, t: string)
    requires PaddedAt(s, a, t)
    requires t != [] ==> !IsSpace(t[0]) && !IsSpace(t[|t| - 1])
    ensures t == Strip(s)
  {
    var r := Strip(s);
    var b := StripStart(s);
    if t != [] {
      assert r != [];
      PaddedSameStart(s, a, t, b, r);
      PaddedSameEnd(s, a, t, b, r);
      assert |t| == |r|;
    } else {
      SpaceJoin(s, a);
    }
  }

  /** Stripping is idempotent. */
  lemma StripIdempotent(s: string)
    ensures Strip(Strip(s)) == Strip(s)
  {
    var r := Strip(s);
    assert r[0..|r|] == r;
    StripUnique(r, 0, r);
  }

  /** Two non-empty padded runs with non-whitespace first characters start together. */
  lemma PaddedSameStart(s: string, a: int, t: string, b: int, r: string)
    requires PaddedAt(s, a, t) && PaddedAt(s, b, r)
    requires t != [] && r != []
    requires !IsSpace(t[0]) && !IsSpace(r[0])
    ensures a == b
  {
    assert s[a] == t[0];
    assert s[b] == r[0];
  }

  /** Two non-empty padded runs with non-whitespace last characters end together. */
  lemma PaddedSameEnd(s: string, a: int, t: string, b: int, r: string)
    requires PaddedAt(s, a, t) && PaddedAt(s, b, r)
    requires t != [] && r != []
    requires !IsSpace(t[|t| - 1]) && !IsSpace(r[|r| - 1])
    ensures a + |t| == b + |r|
  {
    assert s[a + |t| - 1] == t[|t| - 1];
    assert s[b + |r| - 1] == r[|r| - 1];
  }
}

=== FILE: sentences.dfy ===
/** The decoded sentence as the command-line tools see it. The decoder that
    produces it is outside this model; a sentence is taken as a record of the
    fields the tools look up. */
module Sentences {
  import opened Base

  /** A sentence's source text: one line for a single-fragment message, or the
      list of its fragment lines. */
  datatype Text = Line(line: string) | Lines(lines: seq<string>)

  /** `type_id()` and the looked-up fields `mmsi`, `lat`, `lon`, `shipname`,
      `destination`, plus the source text. */
  datatype Sentence = Sentence(
    typeId: nat,
    mmsi: Option<string>,
    lat: Option<real>,
    lon: Option<real>,
    shipname: string,
    destination: string,
    text: Text)

  /** The type id of the "static and voyage related data" message, the one
      carrying ship name and destination. */
  const StaticVoyageType: nat := 5

  /** Python truthiness of an optional string: present and non-empty. */
  predicate TruthyText(o: Option<string>)
  {
    o.Some? && o.value != []
  }

  /** Python truthiness of an optional float: present and non-zero. */
  predicate TruthyReal(o: Option<real>)
  {
    o.Some? && o.value != 0.0
  }

  /** The lines `print_sentence_source` writes for a sentence's text: the string
      itself, or each fragment line in order. */
  function SourceLines(t: Text): (r: seq<string>)
    ensures t.Line? ==> |r| == 1 && r[0] == t.line
    ensures t.Lines? ==> r == t.lines
  {
    match t
    case Line(l) => [l]
    case Lines(ls) => ls
  }
}
